=== FILE: README.md ===
# Shopping list view model, modelled in Dafny

This project models the logic of a supermarket shopping-list app: the view
model `ShoppingViewModel`, which keeps the list of items and a loading flag and
mirrors five REST calls (list, create, set checked, update details, delete),
the `Item` record with its derived line total, and the input rules of the add
and edit dialogs.

The view model is a sequential state machine. Its state is
`State(items: seq<Item>, isLoading: bool)`; `totalCost` is a function of
`items`, recomputed on every read. Each operation is one pure transition that
takes the state, the operation's arguments and an `Outcome` of the API call,
and returns the next state. The outcome is `Threw` or `Returned(value)`:

- `getItems` and `addItem` return a decoded body. Every failure throws, and then
  the list is left as it was.
- `updateCheck`, `updateDetails` and `deleteItem` return Retrofit's
  `Response<Unit>`. An HTTP error status is *returned*, not thrown, and the view
  model never looks at it. So the local change is applied whenever the call
  returns, whatever its status, and is skipped only when the call throws.
  `ToggleIgnoresStatus` and `DeleteIgnoresStatus` state this.

Files and modules:

| file | module | models |
|---|---|---|
| `lang.dfy` | `Lang` | Kotlin nullables (`Option`, elvis as `GetOr`) and the 32-bit `Int` (`Int32`) |
| `seqs.dfy` | `Seqs` | `filter` and `map` on sequences, and subsequence order |
| `item.dfy` | `Data` | `data/Item.kt`: the record, its defaults, `precioTotal` |
| `network.dfy` | `Network` | `network/ShoppingApi.kt`: requests, `Response`, call outcomes |
| `viewmodel.dfy` | `ShoppingViewModel` | `viewmodel/ShoppingViewModel.kt`: state, `totalCost`, the five operations |
| `text.dfy` | `Text` | `isDigit`, `isWhitespace`, `trim`, `toIntOrNull`, `Int.toString` |
| `dialogs.dfy` | `Dialogs` | the field filters and confirm buttons of the two dialogs in `MainActivity.kt` |

Prices (`Double` in the app) are `real` here, so every exact-sum lemma about
`totalCost` holds in the model only, not under floating-point rounding.

Behaviour of the code that is easy to misread:

- Toggle and delete apply their local change whenever the call *returns*, not
  only on a 2xx status.
- The request bodies use the keys the code writes, `"comprado"`, `"cantidad"`
  and `"precio"`. The JSON names of the `Item` fields (`is_checked`, `quantity`,
  `price`) apply only to the serialised record.
- Saving unchanged values in the edit dialog sends no request. Locally it still
  overwrites every entry with that id using the argument's quantity and price.
  That is a no-op only when those entries already hold those values
  (`UpdateUnchangedIsNoOp`). A stale argument overwrites them
  (`UpdateUnchangedOverwritesStaleEntry`).
- Nothing in the code keeps ids unique. Toggle, update and delete act on every
  entry carrying the id. "A delete removes exactly one entry" holds only when
  ids are distinct (`DeleteUniqueShrinksByOne`, which assumes it explicitly).
- The edit dialog does not force the quantity to be at least 1. It keeps the
  item's own quantity when the typed one is not positive, and that quantity can
  be anything the server sent.

## Model

| member | source | states |
|---|---|---|
| `Data.Draft` | app/src/main/java/data/Item.kt:11-34 | an item built from name, quantity and price alone takes the record's declared defaults: id 0, unchecked, no creation timestamp |
| `Data.PrecioTotalZero` | app/src/main/java/data/Item.kt:36-37 | the line total is 0 when the quantity or the unit price is 0 |
| `Data.PrecioTotalOnlyQuantityAndPrice` | app/src/main/java/data/Item.kt:36-37 | two items with the same quantity and unit price have the same line total, whatever their id, name, flag or timestamp |
| `Data.PrecioTotalOfCopy` | app/src/main/java/data/Item.kt:36-37 | a copy with new quantity q and price p has line total q * p; a copy with only the flag changed keeps its line total |
| `Data.PrecioTotalNonNegative` | app/src/main/java/data/Item.kt:36-37 | a non-negative quantity at a non-negative price has a non-negative line total |
| `Seqs.Filter` | app/src/main/java/viewmodel/ShoppingViewModel.kt:126 | everything filter keeps satisfies the predicate; it is the identity when all elements satisfy it and empty when none does |
| `Seqs.FilterCounts` | app/src/main/java/viewmodel/ShoppingViewModel.kt:126 | filter keeps every element satisfying the predicate as often as it occurs, and no other |
| `Seqs.Map` | app/src/main/java/viewmodel/ShoppingViewModel.kt:83-85 | map keeps the length and transforms each position independently |
| `Seqs.FilterIsSubsequence` | app/src/main/java/viewmodel/ShoppingViewModel.kt:126 | filter keeps the relative order of the elements it keeps |
| `ShoppingViewModel.SumOfIsSumFromHead` | app/src/main/java/viewmodel/ShoppingViewModel.kt:27-28 | the left fold `sumOf` performs equals the head-first sum of line totals on every list |
| `ShoppingViewModel.SumFromHeadConcat` | app/src/main/java/viewmodel/ShoppingViewModel.kt:27-28 | the total of a concatenation is the sum of the totals |
| `ShoppingViewModel.SumSplitById` | app/src/main/java/viewmodel/ShoppingViewModel.kt:27-28 | the total splits into the total of the entries with a given id plus the total of the rest |
| `ShoppingViewModel.TotalCostNonNegative` | app/src/main/java/viewmodel/ShoppingViewModel.kt:27-28 | a list of non-negative quantities and prices has a non-negative total cost |
| `ShoppingViewModel.FetchStarted` | app/src/main/java/viewmodel/ShoppingViewModel.kt:40 | while the list is being fetched the loading flag is up and the old list is still shown |
| `ShoppingViewModel.FetchItems` | app/src/main/java/viewmodel/ShoppingViewModel.kt:38-49 | after a fetch the loading flag is down on both paths; a returned list replaces the local one exactly; a thrown call leaves it |
| `ShoppingViewModel.Created` | app/src/main/java/viewmodel/ShoppingViewModel.kt:19-33 | a new view model starts empty and idle and runs one fetch: it ends idle, holding the server list or nothing |
| `ShoppingViewModel.AddRequest` | app/src/main/java/viewmodel/ShoppingViewModel.kt:58-60 | the POST carries a draft with id 0, unchecked, no timestamp, and the given name, quantity and price |
| `ShoppingViewModel.AddItem` | app/src/main/java/viewmodel/ShoppingViewModel.kt:55-67 | a returned add puts the server's item first and keeps the old list as the tail; a thrown add changes nothing; the loading flag is untouched |
| `ShoppingViewModel.TotalCostAfterAdd` | app/src/main/java/viewmodel/ShoppingViewModel.kt:63 | a returned add raises the total cost by exactly the added item's line total |
| `ShoppingViewModel.ToggleAppliesRequest` | app/src/main/java/viewmodel/ShoppingViewModel.kt:77-85 | after a returned toggle every entry with the id the PUT named holds the "comprado" value the PUT sent, and every other entry is untouched |
| `ShoppingViewModel.ToggleCheck` | app/src/main/java/viewmodel/ShoppingViewModel.kt:73-89 | a returned toggle sets every entry with the id to the negation of the argument's flag and leaves every other entry, the length and the order; a thrown one changes nothing; the loading flag is untouched |
| `ShoppingViewModel.SetCompradoKeepsSum` | app/src/main/java/viewmodel/ShoppingViewModel.kt:83-85 | rewriting checked flags does not change the sum of line totals |
| `ShoppingViewModel.TotalCostAfterToggle` | app/src/main/java/viewmodel/ShoppingViewModel.kt:83-85 | a toggle never changes the total cost |
| `ShoppingViewModel.ToggleSameArgumentTwice` | app/src/main/java/viewmodel/ShoppingViewModel.kt:77-85 | toggling again with the same argument changes nothing, because the flag is set from the argument, not flipped |
| `ShoppingViewModel.ToggleBackRestores` | app/src/main/java/viewmodel/ShoppingViewModel.kt:77-85 | toggling with the item, then with its updated copy, restores the list when the listed entries carried the argument's flag |
| `ShoppingViewModel.ToggleIgnoresStatus` | app/src/main/java/viewmodel/ShoppingViewModel.kt:80-85 | any returned response, error status or not, gives the same state |
| `ShoppingViewModel.UpdateBody` | app/src/main/java/viewmodel/ShoppingViewModel.kt:99-101 | the body has key "cantidad" exactly when the quantity differs and key "precio" exactly when the price differs, holding the new values, and no other key |
| `ShoppingViewModel.UpdateRequest` | app/src/main/java/viewmodel/ShoppingViewModel.kt:103-105 | no request is made exactly when quantity and price are both unchanged; otherwise the PUT goes to the item's id with that body |
| `ShoppingViewModel.UpdateQuantityAndPrice` | app/src/main/java/viewmodel/ShoppingViewModel.kt:95-114 | unless a call was made and threw, every entry with the id gets the new quantity and price and every other entry is left, in place; a thrown call changes nothing; the loading flag is untouched |
| `ShoppingViewModel.CopiesIsProduct` | app/src/main/java/viewmodel/ShoppingViewModel.kt:108-110 | n additions of c equal n * c, the meaning of the `Copies` term in `TotalCostAfterUpdate` |
| `ShoppingViewModel.SetDetailsSum` | app/src/main/java/viewmodel/ShoppingViewModel.kt:108-110 | after rewriting the details of the entries with an id, the sum is the other entries' total plus q * p for each rewritten entry |
| `ShoppingViewModel.TotalCostAfterUpdate` | app/src/main/java/viewmodel/ShoppingViewModel.kt:108-110 | after an applied update the total cost is the untouched entries' total plus one copy of q * p per entry with the id (`Copies`, read through `CopiesIsProduct`) |
| `ShoppingViewModel.UpdateWithoutCallIgnoresOutcome` | app/src/main/java/viewmodel/ShoppingViewModel.kt:103-110 | with nothing changed no call is made, so the result does not depend on the outcome |
| `ShoppingViewModel.UpdateUnchangedIsNoOp` | app/src/main/java/viewmodel/ShoppingViewModel.kt:99-110 | saving unchanged values leaves the state as it was when the listed entries already hold those values |
| `ShoppingViewModel.UpdateUnchangedOverwritesStaleEntry` | app/src/main/java/viewmodel/ShoppingViewModel.kt:108-110 | a stale argument saved unchanged still overwrites the listed entry, even though no call is made |
| `ShoppingViewModel.DeleteAppliesRequest` | app/src/main/java/viewmodel/ShoppingViewModel.kt:123-126 | after a returned delete no entry carries the id the DELETE named, and every entry with another id is still in the list |
| `ShoppingViewModel.DeleteItem` | app/src/main/java/viewmodel/ShoppingViewModel.kt:120-130 | a returned delete leaves no entry with the id, and deleting an absent id changes nothing; a thrown delete changes nothing; the loading flag is untouched |
| `ShoppingViewModel.DeleteKeepsOthers` | app/src/main/java/viewmodel/ShoppingViewModel.kt:126 | a returned delete drops exactly the entries with the id and keeps every other entry as often as it occurred |
| `ShoppingViewModel.DeleteKeepsOrder` | app/src/main/java/viewmodel/ShoppingViewModel.kt:126-129 | the entries that survive a delete keep their relative order, on a returned call and, since a list is a subsequence of itself (`Seqs.SubsequenceOfItself`), on a thrown one |
| `ShoppingViewModel.TotalCostAfterDelete` | app/src/main/java/viewmodel/ShoppingViewModel.kt:126 | a returned delete lowers the total cost by exactly the total of the removed entries |
| `ShoppingViewModel.FilterByIdPartition` | app/src/main/java/viewmodel/ShoppingViewModel.kt:126 | the entries with an id and those without it together make up the whole list, each entry once, so their counts add up to the list's length |
| `ShoppingViewModel.UniqueIdCountsOnce` | app/src/main/java/viewmodel/ShoppingViewModel.kt:126 | with distinct ids, a present id is carried by exactly one entry |
| `ShoppingViewModel.DeleteUniqueShrinksByOne` | app/src/main/java/viewmodel/ShoppingViewModel.kt:126 | with distinct ids, a returned delete of a present id shortens the list by exactly one |
| `ShoppingViewModel.DeleteIgnoresStatus` | app/src/main/java/viewmodel/ShoppingViewModel.kt:123-126 | any returned response, error status or not, gives the same state |
| `ShoppingViewModel.ToggleKeepsIdsUnique` | app/src/main/java/viewmodel/ShoppingViewModel.kt:83-85 | a toggle never introduces a duplicate id |
| `ShoppingViewModel.UpdateKeepsIdsUnique` | app/src/main/java/viewmodel/ShoppingViewModel.kt:108-110 | an update never introduces a duplicate id |
| `ShoppingViewModel.DeleteKeepsIdsUnique` | app/src/main/java/viewmodel/ShoppingViewModel.kt:126 | a delete never introduces a duplicate id |
| `ShoppingViewModel.SameIdsKeepUnique` | app/src/main/java/viewmodel/ShoppingViewModel.kt:83-85 | a list whose ids match a duplicate-free list position by position is duplicate-free |
| `ShoppingViewModel.SubsequenceKeepsUniqueIds` | app/src/main/java/viewmodel/ShoppingViewModel.kt:126 | an order-preserving selection from a duplicate-free list is duplicate-free |
| `ShoppingViewModel.MilkThenBread` | app/src/main/java/viewmodel/ShoppingViewModel.kt:59-63 | Milk 2 at 3.50 costs 7.00; adding Bread 1 at 2.00, numbered 2 by the server, puts it first and brings the total to 9.00 |
| `ShoppingViewModel.ToggleThrowsKeepsUnchecked` | app/src/main/java/viewmodel/ShoppingViewModel.kt:86-88 | a toggle whose call throws leaves item 1 unchecked |
| `Text.TrimStart` | app/src/main/java/com/example/supermarketlistapp/MainActivity.kt:300 | the result is a suffix of the input, does not start with whitespace, and what was cut off is all whitespace |
| `Text.TrimEnd` | app/src/main/java/com/example/supermarketlistapp/MainActivity.kt:300 | the result is a prefix of the input, does not end with whitespace, and what was cut off is all whitespace |
| `Text.Trim` | app/src/main/java/com/example/supermarketlistapp/MainActivity.kt:300 | the trimmed name is empty exactly when the input is all whitespace, and otherwise starts and ends with a non-whitespace character |
| `Text.TrimPadded` | app/src/main/java/com/example/supermarketlistapp/MainActivity.kt:300 | trimming whitespace padding on either side of a core without outer whitespace gives the core back |
| `Text.TrimIdempotent` | app/src/main/java/com/example/supermarketlistapp/MainActivity.kt:300 | trimming twice is trimming once, so the name saved at :300 is already in trimmed form |
| `Text.ParseInt` | app/src/main/java/com/example/supermarketlistapp/MainActivity.kt:238 | a digit string parses to its value when that fits in an Int and to null otherwise; a leading minus sign negates and a leading plus sign is accepted; a result exists only when, after at most one sign, at least one digit follows and nothing but digits; so an empty string, a lone sign or any other character gives null |
| `Text.ShowNat` | app/src/main/java/com/example/supermarketlistapp/MainActivity.kt:211 | a non-negative number prints as a non-empty digit string without leading zero that denotes it |
| `Text.ShowInt` | app/src/main/java/com/example/supermarketlistapp/MainActivity.kt:211 | a number prints as its digits, preceded by a minus sign when negative, with no leading zero in either case |
| `Text.ParseShowRoundTrip` | app/src/main/java/com/example/supermarketlistapp/MainActivity.kt:211-238 | parsing the printed form of any Int gives the Int back |
| `Dialogs.QuantityFilter` | app/src/main/java/com/example/supermarketlistapp/MainActivity.kt:222 | the quantity field keeps exactly the digits typed, with their multiplicities, in order |
| `Dialogs.PriceFilter` | app/src/main/java/com/example/supermarketlistapp/MainActivity.kt:230 | the price field keeps exactly the digits and points typed, with their multiplicities, in order |
| `Dialogs.QuantityFilterIdempotent` | app/src/main/java/com/example/supermarketlistapp/MainActivity.kt:284 | filtering a quantity field twice changes nothing more |
| `Dialogs.PriceFilterIdempotent` | app/src/main/java/com/example/supermarketlistapp/MainActivity.kt:292 | filtering a price field twice changes nothing more |
| `Dialogs.FilteredQuantityParses` | app/src/main/java/com/example/supermarketlistapp/MainActivity.kt:238 | a filtered quantity fails to parse exactly when it is empty or too large for an Int |
| `Dialogs.EditConfirm` | app/src/main/java/com/example/supermarketlistapp/MainActivity.kt:237-245 | a positive parsed quantity is saved; an unparseable or non-positive one falls back to the item's quantity, so the saved quantity is positive when the item's is; an unparseable price falls back to the item's price |
| `Dialogs.EditUntouchedQuantity` | app/src/main/java/com/example/supermarketlistapp/MainActivity.kt:211-245 | confirming the untouched quantity field saves the item's own quantity, whatever its sign |
| `Dialogs.EditUntouchedSendsNothing` | app/src/main/java/viewmodel/ShoppingViewModel.kt:99-105 | confirming an untouched edit form issues no request |
| `Dialogs.CoerceAtLeast` | app/src/main/java/com/example/supermarketlistapp/MainActivity.kt:302 | the result is the value raised to the minimum: at least both, and equal to one of them |
| `Dialogs.AddConfirm` | app/src/main/java/com/example/supermarketlistapp/MainActivity.kt:299-306 | onSave fires exactly when the name is not all whitespace, with the trimmed name, the parsed quantity raised to at least 1 or 1 when unparseable, and the parsed price or 0.0 |
| `Dialogs.AddConfirmFiresWhenEnabled` | app/src/main/java/com/example/supermarketlistapp/MainActivity.kt:304-307 | onSave fires exactly when the confirm button is enabled |
| `Dialogs.AddDialogDraftIsWellFormed` | app/src/main/java/com/example/supermarketlistapp/MainActivity.kt:299-306 | the draft the add dialog leads to has id 0, a non-empty already-trimmed name and a quantity of at least 1 |

## Left out

- Compose rendering: layout, cards, dialog widgets, the progress bar and the `%.2f` formatting of totals.
- Retrofit and Gson wiring (`network/RetrofitClient.kt`, the endpoint annotations, JSON field mapping): a call is reduced to the request it carries and an `Outcome`.
- Coroutines: each operation is one atomic step. Interleavings of operations launched concurrently, and cancellation with the view model's scope, are not modelled.
- Floating point: prices and totals are exact `real`s. Rounding in `sumOf` and in `cantidad * precio`, NaN, infinities and `-0.0` in the `!=` price comparison are not modelled.
- `String.toDoubleOrNull()`: passed in as an arbitrary function from strings to optional reals.
- `Double.toString()` of the edit dialog's initial price text: not modelled, so confirming an untouched price field is stated only for a parser that returns the item's price or null.
- The `println` calls in the catch blocks: logging with no effect on state.
- The build configuration (`app/build.gradle.kts`).
- Text.IsDigit: only the ASCII digits. Kotlin's `Char.isDigit()` and the digit reading in `toIntOrNull()` also accept other Unicode decimal digits.

=== FILE: dialogs.dfy ===
/**
  The input rules of the two dialogs in `MainActivity.kt`, lifted out of the
  widgets as pure functions: what each text field keeps of what is typed, and
  what the confirm button hands to the view model.

  `Double` parsing (`String.toDoubleOrNull()`) is not modelled; it is passed in
  as an arbitrary function `parseDouble`.
 */
module Dialogs {
  import opened Lang
  import opened Seqs
  import opened Text
  import opened Data
  import opened Network
  import opened ShoppingViewModel

  /** What the price fields admit: digits and the decimal point. */
  predicate IsPriceChar(c: char) {
    IsDigit(c) || c == '.'
  }

  /** The quantity fields keep exactly the digits typed, in order. */
  function QuantityFilter(typed: string): (r: string)
    ensures AllDigits(r)
    ensures AllDigits(typed) ==> r == typed
    ensures forall c :: multiset(r)[c] == if IsDigit(c) then multiset(typed)[c] else 0
    ensures IsSubsequence(r, typed)
  {
    FilterIsSubsequence(typed, IsDigit);
    FilterCounts(typed, IsDigit);
    Filter(typed, IsDigit)
  }

  /** The price fields keep exactly the digits and points typed, in order. */
  function PriceFilter(typed: string): (r: string)
    ensures forall i | 0 <= i < |r| :: IsPriceChar(r[i])
    ensures (forall i | 0 <= i < |typed| :: IsPriceChar(typed[i])) ==> r == typed
    ensures forall c :: multiset(r)[c] == if IsPriceChar(c) then multiset(typed)[c] else 0
    ensures IsSubsequence(r, typed)
  {
    FilterIsSubsequence(typed, IsPriceChar);
    FilterCounts(typed, IsPriceChar);
    Filter(typed, IsPriceChar)
  }

  /** Filtering a quantity field twice changes nothing more. */
  lemma QuantityFilterIdempotent(typed: string)
    ensures QuantityFilter(QuantityFilter(typed)) == QuantityFilter(typed)
  {
  }

  /** Filtering a price field twice changes nothing more. */
  lemma PriceFilterIdempotent(typed: string)
    ensures PriceFilter(PriceFilter(typed)) == PriceFilter(typed)
  {
  }

  /** Once filtered, a quantity field parses unless it is empty or too large for an `Int`: a sign can no longer get in the way. */
  lemma FilteredQuantityParses(typed: string)
    ensures var kept := QuantityFilter(typed);
            ParseInt(kept).None? <==> kept == [] || DigitsValue(kept) > INT_MAX
  {
  }

  // ------------------------------------------------------------------------
  // EditItemDialog

  /**
    The edit dialog's confirm button: the quantity and price handed to
    `updateQuantityAndPrice`. A quantity that parses to a positive number is
    taken; one that does not parse, or parses to zero or less, falls back to the
    item's own quantity. A price that does not parse falls back to the item's
    own price.
   */
  function EditConfirm(item: Item, quantityInput: string, priceInput: string, parseDouble: string -> Option<real>): (saved: (Int32, real))
    ensures ParseInt(quantityInput).Some? && ParseInt(quantityInput).value > 0 ==> saved.0 == ParseInt(quantityInput).value
    ensures ParseInt(quantityInput).None? || ParseInt(quantityInput).value <= 0 ==> saved.0 == item.cantidad
    ensures item.cantidad > 0 ==> saved.0 > 0
    ensures parseDouble(priceInput).Some? ==> saved.1 == parseDouble(priceInput).value
    ensures parseDouble(priceInput).None? ==> saved.1 == item.precio
  {
    var newQuantity := ParseInt(quantityInput).GetOr(item.cantidad);
    var newPrice := parseDouble(priceInput).GetOr(item.precio);
    if newQuantity > 0 then (newQuantity, newPrice) else (item.cantidad, newPrice)
  }

  /** The quantity field starts as `item.cantidad.toString()`; confirming it untouched saves the item's quantity, whatever its sign. */
  lemma EditUntouchedQuantity(item: Item, priceInput: string, parseDouble: string -> Option<real>)
    ensures EditConfirm(item, ShowInt(item.cantidad), priceInput, parseDouble).0 == item.cantidad
  {
    ParseShowRoundTrip(item.cantidad);
  }

  /** Confirming an untouched form issues no request: the update body is empty. */
  lemma EditUntouchedSendsNothing(item: Item, priceInput: string, parseDouble: string -> Option<real>)
    requires parseDouble(priceInput) == Some(item.precio) || parseDouble(priceInput) == None
    ensures var saved := EditConfirm(item, ShowInt(item.cantidad), priceInput, parseDouble);
            UpdateRequest(item, saved.0, saved.1) == None
  {
    EditUntouchedQuantity(item, priceInput, parseDouble);
  }

  // ------------------------------------------------------------------------
  // AddItemDialog

  /** `coerceAtLeast(minimum)`. */
  function CoerceAtLeast(v: Int32, minimum: Int32): (r: Int32)
    ensures r >= minimum && r >= v
    ensures r == v || r == minimum
  {
    if v < minimum then minimum else v
  }

  /** What the add dialog hands to `onSave`: the arguments of `addItem`. */
  datatype NewEntry = NewEntry(nombre: string, cantidad: Int32, precio: real)

  /** The add dialog's confirm button is enabled exactly when the trimmed name is non-empty. */
  predicate ConfirmEnabled(nameInput: string) {
    Trim(nameInput) != []
  }

  /**
    The add dialog's confirm button: the name, quantity and price handed to
    `addItem`, or nothing when the trimmed name is empty. The name is the
    trimmed input; the quantity is the parsed one raised to at least 1, or 1 if
    it does not parse; the price is the parsed one, or 0.0.
   */
  function AddConfirm(nameInput: string, quantityInput: string, priceInput: string, parseDouble: string -> Option<real>): (saved: Option<NewEntry>)
    ensures saved.Some? <==> !AllWhitespace(nameInput)
    ensures saved.Some? ==> saved.value.nombre == Trim(nameInput)
    ensures saved.Some? ==> saved.value.cantidad >= 1
    ensures saved.Some? && ParseInt(quantityInput).Some? && ParseInt(quantityInput).value >= 1 ==>
      saved.value.cantidad == ParseInt(quantityInput).value
    ensures saved.Some? && (ParseInt(quantityInput).None? || ParseInt(quantityInput).value < 1) ==>
      saved.value.cantidad == 1
    ensures saved.Some? && parseDouble(priceInput).Some? ==> saved.value.precio == parseDouble(priceInput).value
    ensures saved.Some? && parseDouble(priceInput).None? ==> saved.value.precio == 0.0
  {
    var nombre := Trim(nameInput);
    var cantidad := match ParseInt(quantityInput)
      case Some(v) => CoerceAtLeast(v, 1)
      case None => 1;
    var precio := parseDouble(priceInput).GetOr(0.0);
    if nombre != [] then Some(NewEntry(nombre, cantidad, precio)) else None
  }

  /** `onSave` fires exactly when the button is enabled. */
  lemma AddConfirmFiresWhenEnabled(nameInput: string, quantityInput: string, priceInput: string, parseDouble: string -> Option<real>)
    ensures AddConfirm(nameInput, quantityInput, priceInput, parseDouble).Some? <==> ConfirmEnabled(nameInput)
  {
  }

  /**
    Whatever is typed, the draft the add dialog makes the view model POST has
    id 0, a name that is non-empty and already trimmed, and a quantity of at
    least 1.
   */
  lemma AddDialogDraftIsWellFormed(nameInput: string, quantityInput: string, priceInput: string, parseDouble: string -> Option<real>)
    requires AddConfirm(nameInput, quantityInput, priceInput, parseDouble).Some?
    ensures var saved := AddConfirm(nameInput, quantityInput, priceInput, parseDouble).value;
            var draft := AddRequest(saved.nombre, saved.cantidad, saved.precio).item;
            draft.id == 0 && draft.nombre != [] && Trim(draft.nombre) == draft.nombre && draft.cantidad >= 1
  {
    TrimIdempotent(nameInput);
  }
}

=== FILE: item.dfy ===
/**
  The shopping-list entry (`data/Item.kt`): an immutable record whose line
  total is derived from quantity and unit price and never stored.
 */
module Data {
  import opened Lang

  /**
    One list entry. `id` is assigned by the server (0 on a draft), `cantidad` is
    the quantity, `precio` the unit price (a `Double` in the app, a `real` here),
    `comprado` the checked flag and `fechaCreacion` the server's opaque creation
    timestamp. The three fields the server fills in have the record's defaults:
    no id yet, unchecked, no timestamp.
   */
  datatype Item = Item(
    id: Int32 := 0,
    nombre: string,
    cantidad: Int32,
    precio: real,
    comprado: bool := false,
    fechaCreacion: Option<string> := None)

  /**
    The constructor call that names only `nombre`, `cantidad` and `precio`;
    every other field takes the default the record declares.
   */
  function Draft(nombre: string, cantidad: Int32, precio: real): (it: Item)
    ensures it.id == 0
    ensures !it.comprado && it.fechaCreacion == None
    ensures it.nombre == nombre && it.cantidad == cantidad && it.precio == precio
  {
    Item(nombre := nombre, cantidad := cantidad, precio := precio)
  }

  /** The derived `precioTotal` getter: quantity (widened to a decimal) times unit price. */
  function PrecioTotal(it: Item): real {
    it.cantidad as real * it.precio
  }

  /** A line total vanishes when either factor does. */
  lemma PrecioTotalZero(it: Item)
    requires it.cantidad == 0 || it.precio == 0.0
    ensures PrecioTotal(it) == 0.0
  {
  }

  /** A line total depends on nothing but quantity and unit price: id, name, flag and timestamp are irrelevant. */
  lemma PrecioTotalOnlyQuantityAndPrice(a: Item, b: Item)
    requires a.cantidad == b.cantidad && a.precio == b.precio
    ensures PrecioTotal(a) == PrecioTotal(b)
  {
  }

  /** The line total is recomputed from the current fields: changing them changes it. */
  lemma PrecioTotalOfCopy(it: Item, q: Int32, p: real, flag: bool)
    ensures PrecioTotal(it.(cantidad := q, precio := p)) == q as real * p
    ensures PrecioTotal(it.(comprado := flag)) == PrecioTotal(it)
  {
  }

  /** A non-negative quantity at a non-negative price never costs less than nothing. */
  lemma PrecioTotalNonNegative(it: Item)
    requires it.cantidad >= 0 && it.precio >= 0.0
    ensures PrecioTotal(it) >= 0.0
  {
  }
}

=== FILE: lang.dfy ===
/**
  The two Kotlin language types the app leans on: nullable values (`T?` with
  the elvis operator `?:`) and the 32-bit `Int`.
 */
module Lang {

  /** A Kotlin nullable value: `null` or a present value. */
  datatype Option<+T> = None | Some(value: T) {

    /** The elvis operator `this ?: default`. */
    function GetOr(default: T): T {
      match this
      case Some(v) => v
      case None => default
    }
  }

  const INT_MIN: int := -0x8000_0000
  const INT_MAX: int := 0x7fff_ffff

  /** Kotlin's `Int`: a signed 32-bit integer. */
  type Int32 = x: int | INT_MIN <= x <= INT_MAX
}

=== FILE: network.dfy ===
/**
  The API surface the view model talks to (`network/ShoppingApi.kt`), reduced to
  what the view model can observe: which request it issues, and whether the
  suspending call came back or threw.
 */
module Network {
  import opened Lang
  import opened Data

  /**
    How a suspending API call comes back to the view model: it throws, or it
    returns a value. For `getItems` and `addItem` the value is the decoded body
    and every failure (transport, HTTP status, decoding) throws. For the calls
    typed `Response<Unit>` the value is the response, and an HTTP error status
    is returned, not thrown: only a transport failure throws.
   */
  datatype Outcome<+T> = Threw | Returned(value: T)

  /** Retrofit's `Response<Unit>`: an HTTP status code and no body. */
  datatype Response = Response(code: int)

  /** A value in the `Map<String, Any>` body of the details update. */
  datatype BodyValue = IntValue(i: Int32) | RealValue(r: real)

  /** The five endpoints, with the path id and request body each one is sent. */
  datatype Request =
    | GetItems                                                   // GET items
    | PostItem(item: Item)                                       // POST items
    | PutCheck(checkId: Int32, checkBody: map<string, bool>)     // PUT items/{id}/check
    | PutDetails(detailsId: Int32, detailsBody: map<string, BodyValue>) // PUT items/{id}
    | DeleteById(deleteId: Int32)                                // DELETE items/{id}
}

=== FILE: seqs.dfy ===
/**
  The two Kotlin collection operations the view model and the input fields use,
  `filter` and `map`, over immutable sequences, with what they promise.
 */
module Seqs {

  /** Kotlin's `filter`: the elements of `s` that satisfy `p`, in their original order. */
  function Filter<T(!new)>(s: seq<T>, p: T -> bool): (r: seq<T>)
    ensures |r| <= |s|
    ensures forall i | 0 <= i < |r| :: p(r[i])
    ensures (forall i | 0 <= i < |s| :: p(s[i])) ==> r == s
    ensures (forall i | 0 <= i < |s| :: !p(s[i])) ==> r == []
  {
    if s == [] then []
    else if p(s[0]) then [s[0]] + Filter(s[1..], p) else Filter(s[1..], p)
  }

  /** Filtering keeps every element that satisfies `p` as often as it occurs, and no other. */
  lemma {:induction false} FilterCounts<T(!new)>(s: seq<T>, p: T -> bool)
    ensures forall x :: multiset(Filter(s, p))[x] == if p(x) then multiset(s)[x] else 0
  {
    if s != [] {
      assert s == [s[0]] + s[1..];
      FilterCounts(s[1..], p);
    }
  }

  /** Kotlin's `map`: `f` applied to every element, positions kept. */
  function Map<T, U>(s: seq<T>, f: T -> U): (r: seq<U>)
    ensures |r| == |s|
    ensures forall i | 0 <= i < |s| :: r[i] == f(s[i])
  {
    if s == [] then [] else [f(s[0])] + Map(s[1..], f)
  }

  /** `a` is obtained from `b` by deleting elements, without reordering the rest. */
  ghost predicate IsSubsequence<T>(a: seq<T>, b: seq<T>)
    decreases |b|
  {
    a == [] || (b != [] && if a[0] == b[0] then IsSubsequence(a[1..], b[1..]) else IsSubsequence(a, b[1..]))
  }

  /** Filtering keeps the relative order of the elements it keeps. */
  lemma {:induction false} FilterIsSubsequence<T(!new)>(s: seq<T>, p: T -> bool)
    ensures IsSubsequence(Filter(s, p), s)
  {
    if s != [] {
      FilterIsSubsequence(s[1..], p);
      if !p(s[0]) {
        var r := Filter(s[1..], p);
        SubsequenceOfTail(r, s);
      }
    }
  }

  /** Whatever is a subsequence of the tail is a subsequence of the whole. */
  lemma {:induction false} SubsequenceOfTail<T>(a: seq<T>, b: seq<T>)
    requires b != []
    requires IsSubsequence(a, b[1..])
    ensures IsSubsequence(a, b)
    decreases |b|
  {
    if a != [] && a[0] == b[0] {
      SubsequenceDropHead(a, b[1..]);
      SubsequenceOfTail(a[1..], b[1..]);
    }
  }

  /** If `a` is a subsequence of `b`, its tail is a subsequence of `b`'s tail. */
  lemma {:induction false} SubsequenceDropHead<T>(a: seq<T>, b: seq<T>)
    requires a != [] && IsSubsequence(a, b)
    ensures b != [] && IsSubsequence(a[1..], b[1..])
    decreases |b|
  {
    if a[0] != b[0] {
      SubsequenceDropHead(a, b[1..]);
      SubsequenceOfTail(a[1..], b[1..]);
    }
  }

  /** Every sequence is a subsequence of itself. */
  lemma {:induction false} SubsequenceOfItself<T>(s: seq<T>)
    ensures IsSubsequence(s, s)
  {
    if s != [] {
      SubsequenceOfItself(s[1..]);
    }
  }

  /** When the heads differ, the head of `b` is skipped. */
  lemma SubsequenceHeadLater<T>(a: seq<T>, b: seq<T>)
    requires a != [] && IsSubsequence(a, b) && a[0] != b[0]
    ensures IsSubsequence(a, b[1..])
  {
  }

  /** Every element of a subsequence is an element of the sequence. */
  lemma {:induction false} SubsequenceElements<T>(a: seq<T>, b: seq<T>, j: int)
    requires IsSubsequence(a, b) && 0 <= j < |a|
    ensures exists k | 0 <= k < |b| :: b[k] == a[j]
    decreases |b|
  {
    if a[0] == b[0] {
      if j > 0 {
        SubsequenceElements(a[1..], b[1..], j - 1);
        var k :| 0 <= k < |b[1..]| && b[1..][k] == a[1..][j - 1];
        assert b[k + 1] == a[j];
      }
    } else {
      SubsequenceElements(a, b[1..], j);
      var k :| 0 <= k < |b[1..]| && b[1..][k] == a[j];
      assert b[k + 1] == a[j];
    }
  }
}

=== FILE: text.dfy ===
/**
  The Kotlin text primitives the two dialogs rely on: the character classes of
  `Char.isDigit()` and `Char.isWhitespace()`, `String.trim()`,
  `String.toIntOrNull()` and `Int.toString()`.
 */
module Text {
  import opened Lang

  /** `Char.isDigit()`, restricted to the ASCII digits. */
  predicate IsDigit(c: char) {
    '0' <= c <= '9'
  }

  /** `Char.isWhitespace()` on the JVM: the Java whitespace characters together with the Unicode space separators. */
  predicate IsWhitespace(c: char) {
    || '\U{9}' <= c <= '\U{D}'
    || '\U{1C}' <= c <= '\U{20}'
    || c == '\U{A0}' || c == '\U{1680}'
    || '\U{2000}' <= c <= '\U{200A}'
    || c == '\U{2028}' || c == '\U{2029}' || c == '\U{202F}' || c == '\U{205F}' || c == '\U{3000}'
  }

  predicate AllDigits(s: string) {
    forall i | 0 <= i < |s| :: IsDigit(s[i])
  }

  predicate AllWhitespace(s: string) {
    forall i | 0 <= i < |s| :: IsWhitespace(s[i])
  }

  function DigitValue(c: char): (d: nat)
    requires IsDigit(c)
    ensures d < 10
  {
    c as int - '0' as int
  }

  function DigitChar(d: nat): (c: char)
    requires d < 10
    ensures IsDigit(c) && DigitValue(c) == d
  {
    ('0' as int + d) as char
  }

  /** The number a string of digits denotes in base 10, leading zeros allowed. */
  function DigitsValue(s: string): nat
    requires AllDigits(s)
  {
    if s == [] then 0 else DigitsValue(s[..|s| - 1]) * 10 + DigitValue(s[|s| - 1])
  }

  // ------------------------------------------------------------------------
  // String.trim()

  /** Leading whitespace removed. */
  function TrimStart(s: string): (r: string)
    ensures |r| <= |s| && r == s[|s| - |r|..]
    ensures r == [] || !IsWhitespace(r[0])
    ensures AllWhitespace(s[..|s| - |r|])
  {
    if s != [] && IsWhitespace(s[0]) then
      var r := TrimStart(s[1..]);
      assert s[1..][..|s| - 1 - |r|] == s[1..|s| - |r|];
      r
    else s
  }

  /** Trailing whitespace removed. */
  function TrimEnd(s: string): (r: string)
    ensures |r| <= |s| && r == s[..|r|]
    ensures r == [] || !IsWhitespace(r[|r| - 1])
    ensures AllWhitespace(s[|r|..])
  {
    if s != [] && IsWhitespace(s[|s| - 1]) then
      var r := TrimEnd(s[..|s| - 1]);
      assert s[..|s| - 1][|r|..] + [s[|s| - 1]] == s[|r|..];
      r
    else s
  }

  /**
    `String.trim()`: whitespace removed from both ends. The result is empty
    exactly when the input is all whitespace.
   */
  function Trim(s: string): (r: string)
    ensures |r| <= |s|
    ensures r == [] <==> AllWhitespace(s)
    ensures r != [] ==> !IsWhitespace(r[0]) && !IsWhitespace(r[|r| - 1])
  {
    var front := TrimStart(s);
    var r := TrimEnd(front);
    if r == [] then
      // all of `front` was trailing whitespace, yet it cannot start with whitespace
      assert front[|r|..] == front;
      assert front == [];
      assert s[..|s| - |front|] == s;
      r
    else
      assert r[0] == front[0];
      assert !AllWhitespace(s) by {
        var k := |s| - |front|;
        assert s[k] == front[0];
      }
      r
  }

  /** Leading whitespace in front of a string that starts with something else is exactly what `TrimStart` removes. */
  lemma {:induction false} TrimStartPadded(pad: string, t: string)
    requires AllWhitespace(pad)
    requires t == [] || !IsWhitespace(t[0])
    ensures TrimStart(pad + t) == t
  {
    if pad == [] {
      assert pad + t == t;
    } else {
      assert (pad + t)[1..] == pad[1..] + t;
      TrimStartPadded(pad[1..], t);
    }
  }

  /** Trailing whitespace behind a string that ends with something else is exactly what `TrimEnd` removes. */
  lemma {:induction false} TrimEndPadded(t: string, pad: string)
    requires AllWhitespace(pad)
    requires t == [] || !IsWhitespace(t[|t| - 1])
    ensures TrimEnd(t + pad) == t
  {
    if pad == [] {
      assert t + pad == t;
    } else {
      var shorter := pad[..|pad| - 1];
      assert (t + pad)[..|t + pad| - 1] == t + shorter;
      TrimEndPadded(t, shorter);
    }
  }

  /**
    `Trim` is characterised by what it keeps: for a core that neither starts nor
    ends with whitespace, padding it with whitespace on either side trims back
    to the core.
   */
  lemma TrimPadded(before: string, core: string, after: string)
    requires AllWhitespace(before) && AllWhitespace(after)
    requires core == [] || (!IsWhitespace(core[0]) && !IsWhitespace(core[|core| - 1]))
    ensures Trim(before + core + after) == core
  {
    var s := before + core + after;
    assert s == before + (core + after);
    if core == [] {
      assert AllWhitespace(s) by {
        forall i | 0 <= i < |s| ensures IsWhitespace(s[i]) {
          if i < |before| { assert s[i] == before[i]; } else { assert s[i] == after[i - |before|]; }
        }
      }
    } else {
      TrimStartPadded(before, core + after);
      TrimEndPadded(core, after);
    }
  }

  /** Trimming twice is trimming once. */
  lemma TrimIdempotent(s: string)
    ensures Trim(Trim(s)) == Trim(s)
  {
    var t := Trim(s);
    TrimPadded([], t, []);
    assert [] + t + [] == t;
  }

  // ------------------------------------------------------------------------
  // String.toIntOrNull() and Int.toString()

  /**
    `String.toIntOrNull()` in base 10: an optional `+` or `-` followed by at
    least one digit, whose value fits in an `Int`; `null` for anything else,
    including the empty string, a lone sign and an overflowing value.
   */
  function ParseInt(s: string): (r: Option<Int32>)
    ensures r.Some? ==> s != []
    ensures AllDigits(s) && s != [] ==>
      r == if DigitsValue(s) <= INT_MAX then Some(DigitsValue(s)) else None
    ensures s != [] && s[0] == '-' && AllDigits(s[1..]) && |s| > 1 ==>
      r == if DigitsValue(s[1..]) <= -INT_MIN then Some(-(DigitsValue(s[1..]) as int)) else None
    ensures s != [] && s[0] == '+' && AllDigits(s[1..]) && |s| > 1 ==>
      r == if DigitsValue(s[1..]) <= INT_MAX then Some(DigitsValue(s[1..])) else None
    ensures r.Some? ==>
      var start := if s[0] == '-' || s[0] == '+' then 1 else 0;
      |s| > start && AllDigits(s[start..])
  {
    if s == [] then None
    else
      var negative := s[0] == '-';
      var start := if s[0] == '-' || s[0] == '+' then 1 else 0;
      var digits := s[start..];
      if digits == [] || !AllDigits(digits) then None
      else
        var magnitude: int := DigitsValue(digits);
        var v := if negative then -magnitude else magnitude;
        if INT_MIN <= v <= INT_MAX then Some(v) else None
  }

  /** `toString()` of a non-negative number: its decimal digits, with no leading zero. */
  function ShowNat(n: nat): (s: string)
    ensures s != [] && AllDigits(s)
    ensures DigitsValue(s) == n
    ensures |s| > 1 ==> s[0] != '0'
  {
    if n < 10 then [DigitChar(n)]
    else
      var init := ShowNat(n / 10);
      var s := init + [DigitChar(n % 10)];
      assert s[..|s| - 1] == init;
      s
  }

  /** `Int.toString()`: a minus sign for negative numbers, then the digits of the magnitude. */
  function ShowInt(n: int): (s: string)
    ensures s != []
    ensures n >= 0 ==> AllDigits(s) && DigitsValue(s) == n
    ensures n < 0 ==> s[0] == '-' && AllDigits(s[1..]) && DigitsValue(s[1..]) == -n
    ensures n >= 0 && |s| > 1 ==> s[0] != '0'
    ensures n < 0 && |s| > 2 ==> s[1] != '0'
  {
    if n < 0 then
      var s := "-" + ShowNat(-n);
      assert s[1..] == ShowNat(-n);
      s
    else ShowNat(n)
  }

  /** Parsing what `toString()` printed gives the number back, for every `Int`. */
  lemma ParseShowRoundTrip(n: Int32)
    ensures ParseInt(ShowInt(n)) == Some(n)
  {
    var s := ShowInt(n);
    if n < 0 {
      assert s[0] == '-' && |s| > 1;
    } else {
      assert IsDigit(s[0]);
    }
  }
}

=== FILE: viewmodel.dfy ===
/**
  The shopping-list view model (`viewmodel/ShoppingViewModel.kt`) as a
  sequential state machine. Every operation is one atomic transition: it takes
  the state when the API call comes back, the operation's arguments and how
  the call came back, and yields the state after the coroutine finished. Only
  `fetchItems` changes anything before its call: it raises the loading flag.
 */
module ShoppingViewModel {
  import opened Lang
  import opened Seqs
  import opened Data
  import opened Network

  /** The observable state: the list shown on screen and the loading flag. */
  datatype State = State(items: seq<Item>, isLoading: bool)

  /** The state of a newly constructed view model, before `init` launches its first fetch. */
  const Fresh: State := State([], false)

  /** Ids are pairwise distinct. The code never relies on it; some lemmas assume it explicitly. */
  ghost predicate UniqueIds(items: seq<Item>) {
    forall i, j | 0 <= i < j < |items| :: items[i].id != items[j].id
  }

  /** Some element carries `id`. */
  ghost predicate ContainsId(items: seq<Item>, id: Int32) {
    exists i | 0 <= i < |items| :: items[i].id == id
  }

  // ------------------------------------------------------------------------
  // totalCost

  /** The sum of every entry's line total, folded from the left starting at 0.0. */
  function SumOf(items: seq<Item>): real {
    if items == [] then 0.0 else SumOf(items[..|items| - 1]) + PrecioTotal(items[|items| - 1])
  }

  /** The same sum, taken head first; the reference the lemmas below reason with. */
  function SumFromHead(items: seq<Item>): (r: real)
    ensures (forall i | 0 <= i < |items| :: PrecioTotal(items[i]) >= 0.0) ==> r >= 0.0
  {
    if items == [] then 0.0 else PrecioTotal(items[0]) + SumFromHead(items[1..])
  }

  /** The `totalCost` getter: recomputed from the current list on every read, never stored. */
  function TotalCost(s: State): real {
    SumOf(s.items)
  }

  lemma {:induction false} SumFromHeadConcat(a: seq<Item>, b: seq<Item>)
    ensures SumFromHead(a + b) == SumFromHead(a) + SumFromHead(b)
  {
    if a != [] {
      assert (a + b)[1..] == a[1..] + b;
      SumFromHeadConcat(a[1..], b);
    } else {
      assert a + b == b;
    }
  }

  /** The fold the app performs and the head-first sum agree on every list. */
  lemma {:induction false} SumOfIsSumFromHead(items: seq<Item>)
    ensures SumOf(items) == SumFromHead(items)
  {
    if items != [] {
      var init, last := items[..|items| - 1], items[|items| - 1];
      SumOfIsSumFromHead(init);
      assert items == init + [last];
      SumFromHeadConcat(init, [last]);
    }
  }

  /** The total of a list is the total of the `id` entries plus the total of the rest. */
  lemma {:induction false} SumSplitById(items: seq<Item>, id: Int32)
    ensures SumFromHead(items) == SumFromHead(Filter(items, HasId(id))) + SumFromHead(Filter(items, OtherId(id)))
  {
    if items != [] {
      SumSplitById(items[1..], id);
    }
  }

  /** A list whose every line total is non-negative has a non-negative total cost. */
  lemma TotalCostNonNegative(s: State)
    requires forall i | 0 <= i < |s.items| :: s.items[i].cantidad >= 0 && s.items[i].precio >= 0.0
    ensures TotalCost(s) >= 0.0
  {
    SumOfIsSumFromHead(s.items);
    forall i | 0 <= i < |s.items| ensures PrecioTotal(s.items[i]) >= 0.0 {
      PrecioTotalNonNegative(s.items[i]);
    }
  }

  // ------------------------------------------------------------------------
  // Element selectors and updaters handed to filter and map

  function HasId(id: Int32): Item -> bool {
    (it: Item) => it.id == id
  }

  function OtherId(id: Int32): Item -> bool {
    (it: Item) => it.id != id
  }

  /** Entries with the id get the flag; every other entry is kept as it is. */
  function SetComprado(id: Int32, flag: bool): Item -> Item {
    (it: Item) => if it.id == id then it.(comprado := flag) else it
  }

  /** Entries with the id get the new quantity and price; every other entry is kept as it is. */
  function SetDetails(id: Int32, q: Int32, p: real): Item -> Item {
    (it: Item) => if it.id == id then it.(cantidad := q, precio := p) else it
  }

  // ------------------------------------------------------------------------
  // fetchItems

  /** The fetch asks for the whole list and sends nothing; it is the one request with no id and no body. */
  function FetchRequest(): (req: Request)
    ensures req.GetItems?
  {
    GetItems
  }

  /** While GET items is in flight the loading flag is up and the list is the old one. */
  function FetchStarted(s: State): (r: State)
    ensures r.isLoading
    ensures r.items == s.items
  {
    s.(isLoading := true)
  }

  /**
    `fetchItems` once the call has come back: the server list replaces the local
    one wholesale, or, if the call threw, the local list stays; the `finally`
    block lowers the loading flag on both paths.
   */
  function FetchItems(s: State, outcome: Outcome<seq<Item>>): (r: State)
    ensures !r.isLoading
    ensures outcome.Returned? ==> r.items == outcome.value
    ensures outcome.Threw? ==> r.items == s.items
  {
    var busy := FetchStarted(s);
    var fetched := match outcome
      case Returned(list) => busy.(items := list)
      case Threw => busy;
    fetched.(isLoading := false)
  }

  /** Construction: an empty, idle view model whose `init` block runs one fetch. */
  function Created(outcome: Outcome<seq<Item>>): (r: State)
    ensures !r.isLoading
    ensures r.items == if outcome.Returned? then outcome.value else []
  {
    FetchItems(Fresh, outcome)
  }

  // ------------------------------------------------------------------------
  // addItem

  /** The POST request `addItem` issues: a draft with the server-side fields left at their defaults. */
  function AddRequest(nombre: string, cantidad: Int32, precio: real): (req: Request)
    ensures req.PostItem?
    ensures req.item.id == 0 && !req.item.comprado && req.item.fechaCreacion.None?
    ensures req.item.nombre == nombre && req.item.cantidad == cantidad && req.item.precio == precio
  {
    PostItem(Draft(nombre, cantidad, precio))
  }

  /**
    `addItem` once the call has come back: the item the server returned (not the
    draft) goes to the head of the list; if the call threw nothing changes.
   */
  function AddItem(s: State, nombre: string, cantidad: Int32, precio: real, outcome: Outcome<Item>): (r: State)
    ensures r.isLoading == s.isLoading
    ensures outcome.Threw? ==> r.items == s.items
    ensures outcome.Returned? ==>
      |r.items| == |s.items| + 1 && r.items[0] == outcome.value && r.items[1..] == s.items
  {
    match outcome
    case Returned(added) => s.(items := [added] + s.items)
    case Threw => s
  }

  /** A successful add raises the total by exactly the new entry's line total. */
  lemma TotalCostAfterAdd(s: State, nombre: string, cantidad: Int32, precio: real, added: Item)
    ensures TotalCost(AddItem(s, nombre, cantidad, precio, Returned(added))) == PrecioTotal(added) + TotalCost(s)
  {
    var r := AddItem(s, nombre, cantidad, precio, Returned(added));
    SumOfIsSumFromHead(r.items);
    SumOfIsSumFromHead(s.items);
    assert r.items[1..] == s.items;
  }

  // ------------------------------------------------------------------------
  // toggleCheck

  /** The PUT request `toggleCheck` issues: the item's id and the negation of the argument's flag. */
  function ToggleRequest(item: Item): (req: Request)
    ensures req.PutCheck? && req.checkId == item.id
    ensures req.checkBody.Keys == {"comprado"} && req.checkBody["comprado"] == !item.comprado
  {
    PutCheck(item.id, map["comprado" := !item.comprado])
  }

  /**
    `toggleCheck` once the call has come back. The response is never inspected,
    so the local update happens whenever the call returns, whatever its status;
    it sets every entry with the argument's id to the negation of the ARGUMENT's
    flag. If the call threw nothing changes.
   */
  function ToggleCheck(s: State, item: Item, outcome: Outcome<Response>): (r: State)
    ensures r.isLoading == s.isLoading
    ensures |r.items| == |s.items|
    ensures outcome.Threw? ==> r.items == s.items
    ensures outcome.Returned? ==> forall i | 0 <= i < |s.items| ::
      r.items[i] == if s.items[i].id == item.id then s.items[i].(comprado := !item.comprado) else s.items[i]
  {
    var req := ToggleRequest(item);
    match outcome
    case Returned(_) => s.(items := Map(s.items, SetComprado(item.id, req.checkBody["comprado"])))
    case Threw => s
  }

  /**
    What the server was told is what the list shows: after a returned toggle
    every entry with the requested id holds the flag the request carried, and
    every other entry is untouched.
   */
  lemma ToggleAppliesRequest(s: State, item: Item, resp: Response)
    ensures var req := ToggleRequest(item);
            var r := ToggleCheck(s, item, Returned(resp));
            |r.items| == |s.items| &&
            forall i | 0 <= i < |r.items| ::
              if s.items[i].id == req.checkId then r.items[i] == s.items[i].(comprado := req.checkBody["comprado"])
              else r.items[i] == s.items[i]
  {
  }

  /** Rewriting checked flags never changes a line total, so it never changes the sum. */
  lemma {:induction false} SetCompradoKeepsSum(items: seq<Item>, id: Int32, flag: bool)
    ensures SumFromHead(Map(items, SetComprado(id, flag))) == SumFromHead(items)
  {
    if items != [] {
      var f := SetComprado(id, flag);
      var m := Map(items, f);
      assert m[1..] == Map(items[1..], f);
      PrecioTotalOnlyQuantityAndPrice(m[0], items[0]);
      SetCompradoKeepsSum(items[1..], id, flag);
    }
  }

  /** Toggling never changes the total cost. */
  lemma TotalCostAfterToggle(s: State, item: Item, outcome: Outcome<Response>)
    ensures TotalCost(ToggleCheck(s, item, outcome)) == TotalCost(s)
  {
    var r := ToggleCheck(s, item, outcome);
    SumOfIsSumFromHead(r.items);
    SumOfIsSumFromHead(s.items);
    if outcome.Returned? {
      SetCompradoKeepsSum(s.items, item.id, !item.comprado);
    }
  }

  /** Repeating a toggle with the same argument is a no-op: the flag is set, not flipped. */
  lemma ToggleSameArgumentTwice(s: State, item: Item, first: Response, second: Response)
    ensures var once := ToggleCheck(s, item, Returned(first));
            ToggleCheck(once, item, Returned(second)) == once
  {
  }

  /**
    Toggling back with the updated copy of the item restores the list, provided
    every entry with that id carried the argument's flag to begin with.
   */
  lemma ToggleBackRestores(s: State, item: Item, first: Response, second: Response)
    requires forall i | 0 <= i < |s.items| && s.items[i].id == item.id :: s.items[i].comprado == item.comprado
    ensures var once := ToggleCheck(s, item, Returned(first));
            ToggleCheck(once, item.(comprado := !item.comprado), Returned(second)) == s
  {
    var once := ToggleCheck(s, item, Returned(first));
    var twice := ToggleCheck(once, item.(comprado := !item.comprado), Returned(second));
    assert twice.items == s.items;
  }

  /** The HTTP status of the returned response plays no part: an error status updates just as a 2xx does. */
  lemma ToggleIgnoresStatus(s: State, item: Item, a: Response, b: Response)
    ensures ToggleCheck(s, item, Returned(a)) == ToggleCheck(s, item, Returned(b))
  {
  }

  // ------------------------------------------------------------------------
  // updateQuantityAndPrice

  /** The partial-update body: a key for each field that differs from the argument's value. */
  function UpdateBody(item: Item, newQuantity: Int32, newPrice: real): (body: map<string, BodyValue>)
    ensures "cantidad" in body <==> item.cantidad != newQuantity
    ensures "precio" in body <==> item.precio != newPrice
    ensures "cantidad" in body ==> body["cantidad"] == IntValue(newQuantity)
    ensures "precio" in body ==> body["precio"] == RealValue(newPrice)
    ensures body.Keys <= {"cantidad", "precio"}
  {
    var empty: map<string, BodyValue> := map[];
    var withQuantity := if item.cantidad != newQuantity then empty["cantidad" := IntValue(newQuantity)] else empty;
    if item.precio != newPrice then withQuantity["precio" := RealValue(newPrice)] else withQuantity
  }

  /** The PUT request issued, if any: none at all when the body would be empty. */
  function UpdateRequest(item: Item, newQuantity: Int32, newPrice: real): (req: Option<Request>)
    ensures req.None? <==> item.cantidad == newQuantity && item.precio == newPrice
    ensures req.Some? ==> req.value == PutDetails(item.id, UpdateBody(item, newQuantity, newPrice))
  {
    var body := UpdateBody(item, newQuantity, newPrice);
    if body != map[] then Some(PutDetails(item.id, body)) else None
  }

  /**
    `updateQuantityAndPrice` once the call (if one was made) has come back.
    Unless the call threw, every entry with the argument's id gets the new
    quantity and price; with no call made the outcome is irrelevant.
   */
  function UpdateQuantityAndPrice(s: State, item: Item, newQuantity: Int32, newPrice: real, outcome: Outcome<Response>): (r: State)
    ensures r.isLoading == s.isLoading
    ensures |r.items| == |s.items|
    ensures UpdateRequest(item, newQuantity, newPrice).Some? && outcome.Threw? ==> r.items == s.items
    ensures UpdateRequest(item, newQuantity, newPrice).None? || outcome.Returned? ==>
      forall i | 0 <= i < |s.items| ::
        r.items[i] == if s.items[i].id == item.id then s.items[i].(cantidad := newQuantity, precio := newPrice) else s.items[i]
  {
    var threw := UpdateRequest(item, newQuantity, newPrice).Some? && outcome.Threw?;
    if threw then s else s.(items := Map(s.items, SetDetails(item.id, newQuantity, newPrice)))
  }

  /** `n` copies of `c` added up. */
  function Copies(n: nat, c: real): real {
    if n == 0 then 0.0 else Copies(n - 1, c) + c
  }

  /** `n` copies of `c` add up to `n * c`. */
  lemma {:induction false} CopiesIsProduct(n: nat, c: real)
    ensures Copies(n, c) == n as real * c
  {
    if n > 0 {
      CopiesIsProduct(n - 1, c);
      assert n as real * c == (n - 1) as real * c + c;
    }
  }

  /** Rewriting the details of the `id` entries: the rest keep their totals, each rewritten one costs `c`, the new line total. */
  lemma {:induction false} SetDetailsSum(items: seq<Item>, id: Int32, q: Int32, p: real, c: real)
    requires c == q as real * p
    ensures SumFromHead(Map(items, SetDetails(id, q, p)))
         == SumFromHead(Filter(items, OtherId(id))) + Copies(|Filter(items, HasId(id))|, c)
  {
    if items == [] {
      assert Map(items, SetDetails(id, q, p)) == [];
    } else {
      var f := SetDetails(id, q, p);
      var m, m' := Map(items, f), Map(items[1..], f);
      var hit, hit' := Filter(items, HasId(id)), Filter(items[1..], HasId(id));
      var miss, miss' := Filter(items, OtherId(id)), Filter(items[1..], OtherId(id));
      assert m[1..] == m';
      SetDetailsSum(items[1..], id, q, p, c);
      if items[0].id == id {
        PrecioTotalOfCopy(items[0], q, p, false);
        assert |hit| == |hit'| + 1;
        assert miss == miss';
      } else {
        assert m[0] == items[0];
        assert hit == hit';
        assert miss[1..] == miss';
      }
    }
  }

  /** After an applied update the total is the untouched entries' total plus q * p per rewritten entry. */
  lemma TotalCostAfterUpdate(s: State, item: Item, q: Int32, p: real, outcome: Outcome<Response>)
    requires UpdateRequest(item, q, p).None? || outcome.Returned?
    ensures TotalCost(UpdateQuantityAndPrice(s, item, q, p, outcome))
         == SumOf(Filter(s.items, OtherId(item.id))) + Copies(|Filter(s.items, HasId(item.id))|, q as real * p)
  {
    var r := UpdateQuantityAndPrice(s, item, q, p, outcome);
    assert r.items == Map(s.items, SetDetails(item.id, q, p));
    SumOfIsSumFromHead(r.items);
    SumOfIsSumFromHead(Filter(s.items, OtherId(item.id)));
    SetDetailsSum(s.items, item.id, q, p, q as real * p);
  }

  /** Without a call the outcome is irrelevant: the local update is the same whatever it would have been. */
  lemma UpdateWithoutCallIgnoresOutcome(s: State, item: Item, a: Outcome<Response>, b: Outcome<Response>)
    ensures UpdateQuantityAndPrice(s, item, item.cantidad, item.precio, a)
         == UpdateQuantityAndPrice(s, item, item.cantidad, item.precio, b)
  {
  }

  /**
    Saving unchanged values is a local no-op only when the list's entries with
    that id already hold those values; otherwise they are overwritten with the
    argument's.
   */
  lemma UpdateUnchangedIsNoOp(s: State, item: Item, outcome: Outcome<Response>)
    requires forall i | 0 <= i < |s.items| && s.items[i].id == item.id ::
      s.items[i].cantidad == item.cantidad && s.items[i].precio == item.precio
    ensures UpdateQuantityAndPrice(s, item, item.cantidad, item.precio, outcome) == s
  {
    var r := UpdateQuantityAndPrice(s, item, item.cantidad, item.precio, outcome);
    assert r.items == s.items;
  }

  /** A stale argument makes the "no change" save overwrite the list entry with the argument's values. */
  lemma UpdateUnchangedOverwritesStaleEntry()
    ensures var listed := Item(7, "Leche", 3, 2.0, false, None);
            var stale := listed.(cantidad := 2);
            UpdateQuantityAndPrice(State([listed], false), stale, 2, 2.0, Threw).items == [stale]
  {
    var listed := Item(7, "Leche", 3, 2.0, false, None);
    var stale := listed.(cantidad := 2);
    var r := UpdateQuantityAndPrice(State([listed], false), stale, 2, 2.0, Threw);
    assert r.items[0] == stale;
  }

  // ------------------------------------------------------------------------
  // deleteItem

  /** The DELETE request `deleteItem` issues. */
  function DeleteRequest(item: Item): (req: Request)
    ensures req.DeleteById? && req.deleteId == item.id
  {
    DeleteById(item.id)
  }

  /**
    `deleteItem` once the call has come back: whenever it returned, whatever its
    status, every entry with the argument's id is filtered out; if it threw
    nothing changes.
   */
  function DeleteItem(s: State, item: Item, outcome: Outcome<Response>): (r: State)
    ensures r.isLoading == s.isLoading
    ensures outcome.Threw? ==> r.items == s.items
    ensures outcome.Returned? ==> forall i | 0 <= i < |r.items| :: r.items[i].id != item.id
    ensures outcome.Returned? && !ContainsId(s.items, item.id) ==> r.items == s.items
  {
    var req := DeleteRequest(item);
    match outcome
    case Returned(_) => s.(items := Filter(s.items, OtherId(req.deleteId)))
    case Threw => s
  }

  /**
    What the server was asked to delete is what goes locally: after a returned
    delete no entry carries the requested id, and every entry with another id
    is still there.
   */
  lemma DeleteAppliesRequest(s: State, item: Item, resp: Response)
    ensures var req := DeleteRequest(item);
            var r := DeleteItem(s, item, Returned(resp));
            (forall i | 0 <= i < |r.items| :: r.items[i].id != req.deleteId) &&
            (forall i | 0 <= i < |s.items| && s.items[i].id != req.deleteId :: s.items[i] in r.items)
  {
    var r := DeleteItem(s, item, Returned(resp));
    FilterCounts(s.items, OtherId(item.id));
    forall i | 0 <= i < |s.items| && s.items[i].id != item.id ensures s.items[i] in r.items {
      assert s.items[i] in multiset(s.items);
    }
  }

  /** A returned delete drops every entry with the id and keeps every other entry as often as it occurred. */
  lemma DeleteKeepsOthers(s: State, item: Item, resp: Response)
    ensures var r := DeleteItem(s, item, Returned(resp));
            forall x :: multiset(r.items)[x] == if x.id == item.id then 0 else multiset(s.items)[x]
  {
    FilterCounts(s.items, OtherId(item.id));
  }

  /** The surviving entries keep their relative order. */
  lemma DeleteKeepsOrder(s: State, item: Item, outcome: Outcome<Response>)
    ensures IsSubsequence(DeleteItem(s, item, outcome).items, s.items)
  {
    if outcome.Returned? {
      FilterIsSubsequence(s.items, OtherId(item.id));
    } else {
      SubsequenceOfItself(s.items);
    }
  }

  /** The total drops by exactly the total of the removed entries. */
  lemma TotalCostAfterDelete(s: State, item: Item, resp: Response)
    ensures TotalCost(DeleteItem(s, item, Returned(resp))) == TotalCost(s) - SumOf(Filter(s.items, HasId(item.id)))
  {
    SumOfIsSumFromHead(s.items);
    SumOfIsSumFromHead(Filter(s.items, OtherId(item.id)));
    SumOfIsSumFromHead(Filter(s.items, HasId(item.id)));
    SumSplitById(s.items, item.id);
  }

  /**
    Filtering by id keeps exactly the entries the complementary filter drops:
    the two parts hold every entry of the list, each once.
   */
  lemma {:induction false} FilterByIdPartition(items: seq<Item>, id: Int32)
    ensures multiset(Filter(items, HasId(id))) + multiset(Filter(items, OtherId(id))) == multiset(items)
    ensures |Filter(items, HasId(id))| + |Filter(items, OtherId(id))| == |items|
  {
    if items != [] {
      assert items == [items[0]] + items[1..];
      FilterByIdPartition(items[1..], id);
    }
  }

  /** With distinct ids, a present id is carried by exactly one entry. */
  lemma {:induction false} UniqueIdCountsOnce(items: seq<Item>, id: Int32)
    requires UniqueIds(items)
    requires ContainsId(items, id)
    ensures |Filter(items, HasId(id))| == 1
  {
    var tail := items[1..];
    assert UniqueIds(tail) by {
      forall i, j | 0 <= i < j < |tail| ensures tail[i].id != tail[j].id {
        assert tail[i] == items[i + 1] && tail[j] == items[j + 1];
      }
    }
    if items[0].id == id {
      forall i | 0 <= i < |tail| ensures !HasId(id)(tail[i]) {
        assert tail[i] == items[i + 1];
      }
    } else {
      var k :| 0 <= k < |items| && items[k].id == id;
      assert tail[k - 1] == items[k];
      UniqueIdCountsOnce(tail, id);
    }
  }

  /** With distinct ids, deleting a present id shortens the list by exactly one. */
  lemma DeleteUniqueShrinksByOne(s: State, item: Item, resp: Response)
    requires UniqueIds(s.items)
    requires ContainsId(s.items, item.id)
    ensures |DeleteItem(s, item, Returned(resp)).items| == |s.items| - 1
  {
    FilterByIdPartition(s.items, item.id);
    UniqueIdCountsOnce(s.items, item.id);
  }

  /** The HTTP status of the returned response plays no part: an error status deletes just as a 2xx does. */
  lemma DeleteIgnoresStatus(s: State, item: Item, a: Response, b: Response)
    ensures DeleteItem(s, item, Returned(a)) == DeleteItem(s, item, Returned(b))
  {
  }

  // ------------------------------------------------------------------------
  // Whole-state invariants

  /** A toggle keeps ids distinct: it changes no id. */
  lemma ToggleKeepsIdsUnique(s: State, item: Item, outcome: Outcome<Response>)
    requires UniqueIds(s.items)
    ensures UniqueIds(ToggleCheck(s, item, outcome).items)
  {
    SameIdsKeepUnique(s.items, ToggleCheck(s, item, outcome).items);
  }

  /** An update keeps ids distinct: it changes no id. */
  lemma UpdateKeepsIdsUnique(s: State, item: Item, q: Int32, p: real, outcome: Outcome<Response>)
    requires UniqueIds(s.items)
    ensures UniqueIds(UpdateQuantityAndPrice(s, item, q, p, outcome).items)
  {
    SameIdsKeepUnique(s.items, UpdateQuantityAndPrice(s, item, q, p, outcome).items);
  }

  /** A delete keeps ids distinct: it only drops entries. Only fetch and add can bring in a duplicate. */
  lemma DeleteKeepsIdsUnique(s: State, item: Item, outcome: Outcome<Response>)
    requires UniqueIds(s.items)
    ensures UniqueIds(DeleteItem(s, item, outcome).items)
  {
    if outcome.Returned? {
      FilterIsSubsequence(s.items, OtherId(item.id));
      SubsequenceKeepsUniqueIds(DeleteItem(s, item, outcome).items, s.items);
    }
  }

  /** Position-wise equal ids carry distinctness over. */
  lemma SameIdsKeepUnique(a: seq<Item>, b: seq<Item>)
    requires UniqueIds(a)
    requires |a| == |b| && forall i | 0 <= i < |a| :: a[i].id == b[i].id
    ensures UniqueIds(b)
  {
  }

  /** An order-preserving selection from a duplicate-free list is duplicate-free. */
  lemma {:induction false} SubsequenceKeepsUniqueIds(a: seq<Item>, b: seq<Item>)
    requires IsSubsequence(a, b) && UniqueIds(b)
    ensures UniqueIds(a)
    decreases |b|
  {
    if a != [] {
      assert UniqueIds(b[1..]) by {
        forall i, j | 0 <= i < j < |b[1..]| ensures b[1..][i].id != b[1..][j].id {
          assert b[1..][i] == b[i + 1] && b[1..][j] == b[j + 1];
        }
      }
      if a[0] != b[0] {
        // b[0] is skipped, so a is already a subsequence of b[1..]
        SubsequenceHeadLater(a, b);
        SubsequenceKeepsUniqueIds(a, b[1..]);
      } else {
        SubsequenceKeepsUniqueIds(a[1..], b[1..]);
        // every later element of a sits in b[1..], whose ids differ from b[0]'s
        forall j | 1 <= j < |a| ensures a[0].id != a[j].id {
          SubsequenceElements(a[1..], b[1..], j - 1);
          var k :| 0 <= k < |b[1..]| && b[1..][k] == a[j];
          assert b[k + 1] == a[j];
        }
        forall i, j | 0 <= i < j < |a| ensures a[i].id != a[j].id {
          if i > 0 {
            assert a[1..][i - 1] == a[i] && a[1..][j - 1] == a[j];
          }
        }
      }
    }
  }

  // ------------------------------------------------------------------------
  // A worked scenario

  /** Milk, 2 at 3.50, costs 7.00; adding Bread, 1 at 2.00, which the server numbers 2, puts it first and makes 9.00. */
  lemma MilkThenBread()
    ensures var milk := Item(1, "Milk", 2, 3.5, false, None);
            var bread := Item(2, "Bread", 1, 2.0, false, Some("2024-01-01"));
            var before := State([milk], false);
            var after := AddItem(before, "Bread", 1, 2.0, Returned(bread));
            TotalCost(before) == 7.0 && after.items == [bread, milk] && TotalCost(after) == 9.0
  {
    var milk := Item(1, "Milk", 2, 3.5, false, None);
    var bread := Item(2, "Bread", 1, 2.0, false, Some("2024-01-01"));
    var after := AddItem(State([milk], false), "Bread", 1, 2.0, Returned(bread));
    assert after.items == [bread, milk];
    assert after.items[..1] == [bread];
  }

  /** A toggle whose call throws leaves item 1 unchecked. */
  lemma ToggleThrowsKeepsUnchecked()
    ensures var milk := Item(1, "Milk", 2, 3.5, false, None);
            ToggleCheck(State([milk], false), milk, Threw).items[0].comprado == false
  {
  }
}
